=== FILE: README.md ===
# Note-taking backend: handlers, pagination and cascade delete in Dafny

This project models the core of a multi-tenant note-taking REST backend (Express and Mongoose). Users own notes and note collections. Every handler applies one rule: the owner, or an admin, may act. The model has three parts:

- **Pagination** (`pagination.dfy`, `decimal.dfy`, `search_params.dfy`). The query middleware validates `page` and `limit`, gives them defaults and caps `limit` at 10. The link builder rewrites the request URL into `first`/`previous`/`next`/`last` links.
- **Resource handlers as decision functions** (`notes.dfy`, `collections.dfy`, `users.dfy`, `legacy_notes.dfy`). Each note, collection and account handler is a pure function from an actor, a request and a store to a status and the store after the call. `Records.Store` holds one map per document kind. `Common.Status` lists the statuses the handlers send, including the 204 that notes and collections use for "not found".
- **Account deletion cascade** (`users.dfy`). Deleting an account removes exactly the notes and collections it owns, plus the account. The two counts it reports equal the number of documents removed.

`legacy_notes.dfy` models the earlier server's note handlers. There a note carries an array of collection ids, and no collection is ever looked up.

Across the writing handlers of the current server (`Notes`, `Collections`, `Users`) the model proves three shared properties:

- `Records.ForeignUntouched`: a non-admin's request never creates, changes or removes another user's note, collection or account.
- `Records.OwnersFixed`: no handler changes the owner or creation time of a document that survives the call.
- `Records.WellFormed`: every stored title, description and name stays non-empty.

The earlier server's writing handlers carry the same three properties over its note store: `LegacyNotes.ForeignNotesUntouched`, `LegacyNotes.NoteOwnersFixed` and `LegacyNotes.Filled`.

Notes may point at collections that no longer exist, because deleting a collection leaves its notes alone. The model allows this, and `Collections.DeleteLeavesMemberNotesDangling` shows it happening.

The repository holds three variants of the server. The model follows `server/`, with `Assessment2/` as the legacy note handlers. A few points on which the variants differ, or the code is easy to misread:

- The `WL_Cham_Server(newest_0.1)` variant keeps a two-way link between notes and collections. Each collection has a `notes` array, and each note a `noteCollectionParent`. Creating a collection links the notes it names (WL_Cham_Server(newest_0.1)/src/controllers/noteCollection.js:81-117), and deleting one clears those notes' parent (same file, lines 144-148). The modelled `server/` variant has none of this. Its collection schema has no `notes` array (server/src/models/noteCollection.js:3-17), and its handlers keep only the note's `belongsToNoteCollection` reference. The model has only that reference.
- For `belongsToNoteCollection`, `optional()` skips only an absent field. `""` and `null` fail `ObjectId.isValid` and are refused with 400 (server/src/controllers/note.js:18-21). Only an absent field, or a valid but falsy value, skips the collection check and stores `null` (note.js:88 and 105). `Notes.RequestedCollection` models this.
- For an ownerless collection, the collection `detail` and `update` handlers call `collection.user.toString()` on a missing value. This throws, and Express answers 500 even to an admin. Note `create` and `update` throw in the same way, but only for a non-admin. `delete` guards against the missing owner. The model keeps these 500 answers as `InternalError500`.

Abstractions:

- `mongoose.Types.ObjectId.isValid`, together with the cast to an ObjectId that `findById`, `save` and `findByIdAndUpdate` apply later, is the parameter `objectId: Json -> IdCast`. Its three outcomes are `NotAnId` (the validator refuses the value), `CastsTo(id)`, and `CastThrows`. `CastThrows` is for a value `isValid` admits but the cast throws on, such as a JSON number: `isValid(5)` holds, yet the cast builds an ObjectId from the text "5" and throws. The handlers answer such a value with 500 wherever the source casts it: in the current server's `create` and `update` when the reference is truthy, and in the earlier server's `create` and `update` for any element of the list, even `0`.
- The case-insensitive title regular expression is the parameter `titleMatches(pattern, title)`.
- Fresh document ids (`newId`) and clock readings (`now`) are parameters.
- Document ids are strings in the canonical form a stored ObjectId prints as: 24 lower-case hexadecimal digits. Two such strings name the same document exactly when they are equal.
- A URL is its path plus its ordered list of query pairs. `SearchParams.Set` follows the `URLSearchParams.set` algorithm of the WHATWG URL standard.

## Model

| member | source | states |
|---|---|---|
| Pagination.AcceptedParam | server/src/middleware/validatePaginateQueryParams.js:8-17 | A query parameter passes `optional().isInt({min: 1})` when it is absent, or when it is integer text (an optional sign, then digits) whose value is at least 1. |
| Decimal.IsIntText | server/src/middleware/validatePaginateQueryParams.js:10 | The text `isInt` accepts: an optional `+` or `-`, then one or more decimal digits and nothing else. Leading zeros are allowed. |
| Decimal.IntValue | server/src/middleware/validatePaginateQueryParams.js:11 | The integer that such text denotes, as `toInt` and `parseInt(..., 10)` read it (lines 17 and 31-32): the sign applied to the decimal value of the digits. |
| Decimal.NatToText | server/src/utils/generatePaginationLinks.js:7-8 | `String(n)` for a natural number, which `searchParams.set` applies to the page and limit numbers. The result is digit text without superfluous leading zeros, at least two digits long from 10 on. |
| Decimal.IntToText | server/src/utils/generatePaginationLinks.js:7-8 | `String(i)` for any integer: a `-` before the text of its magnitude when it is negative. |
| Pagination.NormalizePaginate | server/src/middleware/validatePaginateQueryParams.js:8-35 | A present `page` or `limit` that is not integer text of value at least 1 gives 400, and nothing is passed on. Otherwise an absent page is 1 and an absent limit is 10. A valid page passes unchanged. A valid limit passes unchanged up to 10 and is clamped to 10 above that. Every accepted request has page at least 1 and limit between 1 and 10. |
| Pagination.NormalizeReadsWrittenNumbers | server/src/middleware/validatePaginateQueryParams.js:10-17 | The middleware accepts the decimal text of any page and limit of at least 1 and reads back exactly those numbers, with the limit capped at 10. |
| Decimal.IntTextRoundTrip | server/src/middleware/validatePaginateQueryParams.js:10-11 | The text `String(i)` writes for any integer passes `isInt`, and `toInt` reads it back as `i`. |
| Decimal.TextNatRoundTrip | server/src/middleware/validatePaginateQueryParams.js:10-11 | Conversely, digit text without leading zeros is exactly the text written for the number it denotes. |
| SearchParams.SetThenGet | server/src/utils/generatePaginationLinks.js:7-8 | After `searchParams.set(name, v)`, `get(name)` is `v` and the name occurs exactly once, whatever values it had before. |
| SearchParams.SetKeepsOthers | server/src/utils/generatePaginationLinks.js:6-9 | `set` leaves every pair under other names in place and in order. |
| SearchParams.Set | server/src/utils/generatePaginationLinks.js:7-8 | `URLSearchParams.set` as the WHATWG URL standard defines it. The first pair with the name takes the new value, every later pair with that name is removed, and the pair is appended when the name is absent. |
| Pagination.PageUrl | server/src/utils/generatePaginationLinks.js:5-10 | A page link keeps the request path and every other query parameter. It carries exactly one `page`, equal to its target, and exactly one `limit`, equal to the given limit. |
| Pagination.GeneratePaginationLinks | server/src/utils/generatePaginationLinks.js:4-35 | `first` links to page 1 and `last` to page `totalPages`, even when that is 0. `previous` is empty exactly when the current page is at most 1, and otherwise links to the page before. `next` is empty exactly when the current page is at least `totalPages`, and otherwise links to the page after. |
| Pagination.FollowingLinksMovesOnePage | server/src/utils/generatePaginationLinks.js:26-32 | For a request the middleware accepted, following `previous` or `next` gives a request the middleware accepts for the neighbouring page with the same limit. `first` leads to page 1, and `last` to `totalPages` when that is at least 1. |
| Pagination.EmptyResultLastLinkRejected | server/src/utils/generatePaginationLinks.js:16 | When `totalPages` is 0, `last` points at page 0 whatever the current page, and the middleware itself rejects that page with 400. |
| Listing.SelectSorted | server/src/controllers/note.js:39-41 | `find(filter).sort(key)`: every document the filter keeps is listed exactly once, nothing else is listed, and the list is ordered by the key. |
| Listing.ByNameIsTotalPreorder | server/src/controllers/noteCollection.js:23 | The database's string order on names is total and transitive, so sorting by name is well defined. |
| Notes.List | server/src/controllers/note.js:25-61 | Lists exactly the notes whose title matches. For a non-admin, every listed note is the actor's own. For an admin, no owner constraint applies. Notes come newest first, each once. |
| Notes.Detail | server/src/controllers/note.js:64-76 | A missing note gives 204. An existing note the actor neither owns nor administers gives 403. Otherwise the answer is 200 with the note. |
| Notes.ValidNoteBody | server/src/controllers/note.js:9-22 | `noteValidator` accepts a body whose title and description are non-empty strings and whose `belongsToNoteCollection` is absent or a valid id. `null` and `""` are not valid ids. |
| Notes.RequestedCollection | server/src/controllers/note.js:105 | The fallback of the reference to `null` on a validated body: no collection exactly when the field is absent or falsy, and otherwise the id the field casts to. It is defined only when that cast does not throw. |
| Notes.ReferenceCastThrows | server/src/controllers/note.js:88-89 | The reference is truthy, so `findById` runs on it, and the cast of it to an ObjectId throws. The request then ends in 500. |
| Notes.ListFilter | server/src/controllers/note.js:34-37 | The `find` filter of `list`: the title pattern (empty when no title is given), plus an owner constraint equal to the actor, present exactly when the actor is not an admin. |
| Notes.MatchesFilter | server/src/controllers/note.js:36-40 | A note matches the filter when its title matches the pattern and, if the filter names an owner, the note belongs to that owner. |
| Notes.CollectionCheck | server/src/controllers/note.js:88-98 | A named collection that does not exist gives 400. One owned by someone else gives 403 to a non-admin. An ownerless one makes a non-admin's request fail with 500. An admin passes for any existing collection. |
| Notes.Create | server/src/controllers/note.js:79-111 | An invalid body gives 400. A truthy reference that `isValid` admits but the cast throws on gives 500. Otherwise the status is exactly what the collection check decides: 400 for a missing collection, 403 for another user's collection, 500 for an ownerless one (both for a non-admin only), and otherwise 201, so an admin may file a note in any existing collection. No rejection stores anything. A created note is owned by the actor, carries the given title and description, and stores exactly the requested collection reference, which is none when the field is absent or falsy. Nothing else changes, and no other user's document is touched. |
| Notes.Delete | server/src/controllers/note.js:114-127 | A missing note gives 204 and a foreign note gives 403 to a non-admin, neither changing the store. A successful delete removes only that note, and all other notes, collections and accounts are unchanged. |
| Notes.Update | server/src/controllers/note.js:130-176 | The checks fire in order, all before any write: validation (400), not found (204), not permitted (403), a truthy reference the cast throws on (500), then the collection check (400 for a missing collection, 403 for a foreign one and 500 for an ownerless one, the last two for a non-admin only). A success overwrites title, description and collection reference (a falsy reference becomes none) and the timestamp. The owner, the creation time and every other document are unchanged. |
| Notes.CreateThenDetail | server/src/controllers/note.js:101-109 | A note just created reads back to its creator with 200. |
| Notes.DeleteThenDetail | server/src/controllers/note.js:125 | After a successful delete, reading that note gives 204 to anyone. |
| Notes.UpdateIdempotent | server/src/controllers/note.js:162-172 | Repeating a successful update, at any later clock reading, succeeds again and changes nothing but that note's update time. At the same clock reading it leaves the store exactly as the first update left it. |
| Collections.ValidCollectionBody | server/src/controllers/noteCollection.js:7-17 | `collectionValidator` accepts a body whose name and description are both non-empty strings. |
| Collections.List | server/src/controllers/noteCollection.js:20-28 | An admin gets every collection, and anyone else exactly their own. Ownerless collections are listed for admins only. The list is in ascending name order, each collection once. |
| Collections.Detail | server/src/controllers/noteCollection.js:32-44 | A missing collection gives 204. An ownerless one gives 500, even to an admin. A foreign one gives 403 to a non-admin. Otherwise the answer is 200 with the collection. |
| Collections.Create | server/src/controllers/noteCollection.js:48-65 | An empty or missing name or description gives 400 and writes nothing. Otherwise the actor owns the new collection, which has the given name and description, and nothing else changes. |
| Collections.Delete | server/src/controllers/noteCollection.js:69-86 | A missing collection gives 204. An ownerless collection can be deleted only by an admin. A foreign one gives 403 to a non-admin. A success removes only that collection and modifies no note. |
| Collections.Update | server/src/controllers/noteCollection.js:89-119 | Validation (400) comes before lookup (204). An ownerless collection then gives 500, and a foreign one 403 to a non-admin. A success changes only name, description and timestamp, and the owner stays. |
| Collections.DeleteLeavesMemberNotesDangling | server/src/controllers/noteCollection.js:84 | After a collection is deleted, notes that pointed at it still point at it, although it no longer exists. |
| Collections.CreateThenDetail | server/src/controllers/noteCollection.js:56-63 | A collection just created reads back to its creator with 200. |
| Users.GetAllUsers | server/src/controllers/user.js:8-15 | A non-admin gets 403. An admin gets every account, keyed by id, with username and admin flag and no password. |
| Users.GetProfile | server/src/controllers/user.js:19-30 | A non-admin asking for another account gets 403 before any lookup. A missing account gives 404. Otherwise the answer is the account without its password. |
| Users.ValidProfileBody | server/src/controllers/user.js:35-36 | The profile validators accept a body whose username is absent or a non-empty string, and whose password is absent or a string of at least 4 characters. |
| Users.UpdateProfile | server/src/controllers/user.js:34-58 | The access check (403) precedes validation (400), and validation precedes lookup (404). A password shorter than 4 characters gives 400 and leaves the account unchanged. A success replaces only the supplied, truthy fields. The admin flag, every other account, and all notes and collections are unchanged. |
| Users.UpdateThenGetProfile | server/src/controllers/user.js:52-55 | After a successful update the account reads back with the new username, or with the old one when no username was supplied. |
| Users.DeleteNotesOf | server/src/controllers/user.js:75 | Deleting the target's notes keeps exactly the notes owned by others, unchanged. The number removed is the number the target owned. |
| Users.DeleteCollectionsOf | server/src/controllers/user.js:78 | Deleting the target's collections keeps exactly the collections not owned by the target (ownerless ones included), unchanged. The number removed is the number the target owned. |
| Users.Cascade | server/src/controllers/user.js:75-81 | The three deletions of `deleteProfile`: the notes and collections kept are exactly those not owned by the target, unchanged. Only the target account is removed, and the two differences in size are the numbers of notes and collections the target owned. |
| Users.DeleteProfile | server/src/controllers/user.js:62-88 | A non-admin targeting another id gets 403, and a missing account 404, neither deleting anything. A success removes exactly the target's notes, its collections and the account, and leaves all other records untouched. The reported `deletedNotes` and `deletedCollections` equal the numbers of notes and collections removed. |
| Users.CascadeTouchesOnlyTarget | server/src/controllers/user.js:75-81 | The cascade touches nothing that does not belong to the target, and keeps the non-empty-field guarantee of the store. |
| Users.DeleteProfileLeavesNothingOwned | server/src/controllers/user.js:62-88 | After a successful account deletion nothing is owned by the target, reading it gives 404, and the counts are the sizes of what it owned. |
| LegacyNotes.ValidLegacyBody | Assessment2/src/controllers/note.js:8-23 | This server's `noteValidator` accepts non-empty string title and description, and a `belongsToNoteCollection` that is absent or an array (so not `null`) of valid ids. |
| LegacyNotes.ListCasts | Assessment2/src/controllers/note.js:88-95 | The collection list, if present, is an array whose every element survives the cast that `save` and `findByIdAndUpdate` apply. |
| LegacyNotes.RequestedCollections | Assessment2/src/controllers/note.js:92 | An absent collection list becomes `[]`. A present, validated array becomes the ids of its elements, in order. |
| LegacyNotes.InvalidElementRejected | Assessment2/src/controllers/note.js:17-22 | An array with any element that is not a valid id gives 400, and nothing is stored. |
| LegacyNotes.UncastableElementFails | Assessment2/src/controllers/note.js:88-95 | A validated list holding an element that `isValid` admits but the cast throws on (a number, even `0`) makes `create` fail with 500, and nothing is stored. |
| LegacyNotes.List | Assessment2/src/controllers/note.js:26-62 | A non-admin's listing holds only the actor's notes, an admin's has no owner constraint, and notes come newest first, each once. |
| LegacyNotes.Detail | Assessment2/src/controllers/note.js:65-77 | A missing note gives 204 and a foreign note gives 403 to a non-admin. Otherwise the answer is 200 with the note. |
| LegacyNotes.Create | Assessment2/src/controllers/note.js:80-98 | An invalid body gives 400, and a list holding an element the cast throws on gives 500. Otherwise the note is created, and no collection is consulted. The actor owns the note, and its collection list is `[]` when none is given. Existing notes are left as they were. |
| LegacyNotes.CreateThenDetail | Assessment2/src/controllers/note.js:88-96 | A note just created reads back to its creator with 200. |
| LegacyNotes.Delete | Assessment2/src/controllers/note.js:101-114 | A missing note gives 204 and a foreign note 403, both without change. A success removes only that note. No other user's note is touched, and the titles and descriptions stay non-empty. |
| LegacyNotes.Update | Assessment2/src/controllers/note.js:117-148 | Validation (400), then not found (204), then not permitted (403), then a list holding an element the cast throws on (500), all before the write. A success replaces title, description and the collection list (defaulting to `[]`). The owner and creation time stay, and no other note changes. |
| LegacyNotes.DeleteThenDetail | Assessment2/src/controllers/note.js:101-114 | A delete the owner or an admin asks for succeeds, and afterwards reading that note gives 204 to anyone. |

## Left out

- Process start-up, the database connection, access logging, CORS and rate limiting are configuration and I/O. They are outside the model.
- Routes, the JWT gate and the id-format middleware are outside the model. The actor is an input that is already authenticated. Path ids are `Id` values in the canonical 24-digit lower-case hexadecimal form. `ObjectId.isValid` also admits 12-character strings and upper-case hexadecimal, which `findById` casts to the same ObjectId. The model does not identify such spellings with the canonical one, so for them a lookup the source would satisfy is not modelled.
- Password hashing and token signing are outside the model. The user model is not part of this model, so `updateProfile` stores the supplied password as is.
- Duplicate usernames are not modelled. The user model, and any unique index that would make `save` fail, are not part of this model.
- `mongoose-paginate-v2` is left out: its count of `totalPages` and its slicing of a page are library behaviour. `Notes.List` returns the whole ordered selection, and the link builder takes `totalPages` as an input.
- `populate` of a note's collection in `detail` and `list` is not modelled. The note is returned with its collection id.
- Request-body fields outside the validated ones are not modelled. Repeated query parameters, which Express turns into arrays, are not modelled either. Each of `page`, `limit` and `title` is one string or absent.
- The `title` sanitiser's trimming is not modelled. The `title` input is the value after trimming.
- Pagination.NormalizePaginate: does not model JavaScript's loss of precision for integers beyond 2^53, or `String` switching to exponent notation above 10^21. Integers here are unbounded.
- Users.UpdateProfile: a password's length is counted in characters. `isLength` counts UTF-16 code units, less surrogate pairs and variation selectors, so the two can differ for unusual text.
- Listing.LexLeq compares characters by code point. That matches the database's binary UTF-8 order, but collations are not modelled.
- Serialising a URL to a string, including percent-encoding, is not modelled. A link is its path and its query pairs. An absolute `originalUrl` would keep its origin in the source; this is not modelled.
- Notes.List: `new RegExp(title, "i")` throws on a title that is not a valid pattern, such as `(`, and the request ends in 500. The model takes the match as the total predicate `titleMatches` and has no failure path for this. The same holds for LegacyNotes.List.
- LegacyNotes.List: the same missing failure path for an invalid title pattern (Assessment2/src/controllers/note.js:37-38).
- Races between concurrent requests are not modelled. Each handler is one atomic step. `asyncHandler`'s error forwarding is modelled only as the 500 that the ownerless-collection paths and the failed id casts produce. Database failures are not modelled.

=== FILE: collections.dfy ===
/** The collection handlers of the current server: list, detail, create,
    delete and update. A collection holds no list of its notes; notes point
    at it, and nothing here keeps those references valid. */
module Collections {
  import opened Common
  import opened Records
  import opened Listing

  /** The fields of a create or update request body. */
  datatype CollectionBody = CollectionBody(name: Option<Json>, description: Option<Json>)

  /** `collectionValidator`: name and description are non-empty strings. */
  predicate ValidCollectionBody(body: CollectionBody) {
    IsNonEmptyString(body.name) && IsNonEmptyString(body.description)
  }

  /** `list`: the visible collections in ascending name order. */
  method List(actor: Actor, store: Store) returns (docs: seq<(Id, Collection)>)
    ensures forall i :: 0 <= i < |docs| ==>
              docs[i].0 in store.collections && docs[i].1 == store.collections[docs[i].0]
    ensures forall i :: 0 <= i < |docs| ==> !actor.isAdmin ==> docs[i].1.owner == Some(actor.userId)
    ensures actor.isAdmin ==> KeysOf(docs) == store.collections.Keys
    ensures forall id :: (id in store.collections && store.collections[id].owner == Some(actor.userId))
                         ==> id in KeysOf(docs)
    ensures forall i, j :: 0 <= i < j < |docs| ==> LexLeq(docs[i].1.name, docs[j].1.name)
    ensures Distinct(docs)
  {
    var byName := (a: (Id, Collection), b: (Id, Collection)) => LexLeq(a.1.name, b.1.name);
    ByNameIsTotalPreorder(byName, (c: Collection) => c.name);
    docs := SelectSorted(store.collections, (c: Collection) => MayUseCollection(actor, c), byName);
  }

  /** `detail`. Comparing the owner calls `collection.user.toString()`, which
      throws on an ownerless collection before the admin flag is consulted. */
  function Detail(actor: Actor, id: Id, store: Store): (r: Reply<Collection>)
    ensures id !in store.collections ==> r == Reply(NoContent204, None)
    ensures id in store.collections && store.collections[id].owner.None? ==> r.status == InternalError500
    ensures (id in store.collections && store.collections[id].owner.Some?
             && !OwnerOrAdmin(actor, store.collections[id].owner.value)) ==> r == Reply(Forbidden403, None)
    ensures r.status == Ok200 <==>
      id in store.collections && store.collections[id].owner.Some?
      && OwnerOrAdmin(actor, store.collections[id].owner.value)
    ensures r.status == Ok200 ==> r.body == Some(store.collections[id])
    ensures r.status != Ok200 ==> r.body.None?
  {
    if id !in store.collections then Reply(NoContent204, None)
    else
      var c := store.collections[id];
      if c.owner.None? then Reply(InternalError500, None)
      else if c.owner.value != actor.userId && !actor.isAdmin then Reply(Forbidden403, None)
      else Reply(Ok200, Some(c))
  }

  /** `create`. `newId` is the fresh identifier the database assigns and
      `now` the clock reading the timestamps take. */
  function Create(actor: Actor, body: CollectionBody, newId: Id, now: int, store: Store): (r: Outcome)
    requires newId !in store.collections
    ensures r.status in {Created201, BadRequest400}
    ensures r.status == Created201 <==> ValidCollectionBody(body)
    ensures r.status != Created201 ==> r.store == store
    ensures r.status == Created201 ==>
      && newId in r.store.collections
      && r.store.collections == store.collections[newId := r.store.collections[newId]]
      && r.store.notes == store.notes
      && r.store.users == store.users
    ensures r.status == Created201 ==>
      var c := r.store.collections[newId];
      && OwnsCollection(actor, c)
      && c.name == body.name.value.s
      && c.description == body.description.value.s
      && c.createdAt == now && c.updatedAt == now
    ensures ForeignUntouched(actor, store, r.store)
    ensures OwnersFixed(store, r.store)
    ensures WellFormed(store) ==> WellFormed(r.store)
  {
    if !ValidCollectionBody(body) then Outcome(BadRequest400, store)
    else
      var c := Collection(body.name.value.s, body.description.value.s, Some(actor.userId), now, now);
      Outcome(Created201, store.(collections := store.collections[newId := c]))
  }

  /** `delete`. An ownerless collection is deletable by admins only. Notes
      that point at the deleted collection keep pointing at it. */
  function Delete(actor: Actor, id: Id, store: Store): (r: Outcome)
    ensures r.status in {Ok200, NoContent204, Forbidden403}
    ensures r.status != Ok200 ==> r.store == store
    ensures id !in store.collections ==> r.status == NoContent204
    ensures r.status == Ok200 <==>
      id in store.collections && (actor.isAdmin || OwnsCollection(actor, store.collections[id]))
    ensures id in store.collections && store.collections[id].owner.None? ==> (r.status == Ok200 <==> actor.isAdmin)
    ensures id in store.collections && !actor.isAdmin && !OwnsCollection(actor, store.collections[id])
            ==> r.status == Forbidden403
    ensures r.status == Ok200 ==>
      && r.store.collections.Keys == store.collections.Keys - {id}
      && (forall other :: other in r.store.collections ==> r.store.collections[other] == store.collections[other])
      && r.store.notes == store.notes
      && r.store.users == store.users
    ensures ForeignUntouched(actor, store, r.store)
    ensures OwnersFixed(store, r.store)
    ensures WellFormed(store) ==> WellFormed(r.store)
  {
    if id !in store.collections then Outcome(NoContent204, store)
    else
      var c := store.collections[id];
      if (c.owner.None? || c.owner.value != actor.userId) && !actor.isAdmin then Outcome(Forbidden403, store)
      else Outcome(Ok200, store.(collections := store.collections - {id}))
  }

  /** `update`: validation (400), lookup (204), the owner comparison (which
      throws on an ownerless collection), access (403), then one write of the
      name and the description. */
  function Update(actor: Actor, id: Id, body: CollectionBody, now: int, store: Store): (r: Outcome)
    ensures r.status in {Ok200, NoContent204, BadRequest400, Forbidden403, InternalError500}
    ensures r.status != Ok200 ==> r.store == store
    ensures !ValidCollectionBody(body) ==> r.status == BadRequest400
    ensures ValidCollectionBody(body) && id !in store.collections ==> r.status == NoContent204
    ensures (ValidCollectionBody(body) && id in store.collections && store.collections[id].owner.None?)
            ==> r.status == InternalError500
    ensures (ValidCollectionBody(body) && id in store.collections && store.collections[id].owner.Some?
             && !OwnerOrAdmin(actor, store.collections[id].owner.value)) ==> r.status == Forbidden403
    ensures r.status == Ok200 <==>
      && ValidCollectionBody(body) && id in store.collections && store.collections[id].owner.Some?
      && OwnerOrAdmin(actor, store.collections[id].owner.value)
    ensures r.status == Ok200 ==>
      && r.store.collections.Keys == store.collections.Keys
      && (forall other :: other in store.collections && other != id ==>
            r.store.collections[other] == store.collections[other])
      && r.store.notes == store.notes
      && r.store.users == store.users
    ensures r.status == Ok200 ==>
      var (c, c') := (store.collections[id], r.store.collections[id]);
      && c'.name == body.name.value.s
      && c'.description == body.description.value.s
      && c'.owner == c.owner
      && c'.createdAt == c.createdAt
      && c'.updatedAt == now
    ensures ForeignUntouched(actor, store, r.store)
    ensures OwnersFixed(store, r.store)
    ensures WellFormed(store) ==> WellFormed(r.store)
  {
    if !ValidCollectionBody(body) then Outcome(BadRequest400, store)
    else if id !in store.collections then Outcome(NoContent204, store)
    else
      var c := store.collections[id];
      if c.owner.None? then Outcome(InternalError500, store)
      else if c.owner.value != actor.userId && !actor.isAdmin then Outcome(Forbidden403, store)
      else
        var c' := c.(name := body.name.value.s, description := body.description.value.s, updatedAt := now);
        Outcome(Ok200, store.(collections := store.collections[id := c']))
  }

  /** Deleting a collection leaves every note that pointed at it pointing at
      a collection that no longer exists: dangling references are reachable. */
  lemma DeleteLeavesMemberNotesDangling(actor: Actor, id: Id, store: Store, noteId: Id)
    requires Delete(actor, id, store).status == Ok200
    requires noteId in store.notes && store.notes[noteId].collection == Some(id)
    ensures var s' := Delete(actor, id, store).store;
      noteId in s'.notes && s'.notes[noteId].collection == Some(id) && id !in s'.collections
  {
  }

  /** A collection just created is readable by its creator, who owns it. */
  lemma CreateThenDetail(actor: Actor, body: CollectionBody, newId: Id, now: int, store: Store)
    requires newId !in store.collections
    requires Create(actor, body, newId, now, store).status == Created201
    ensures var s' := Create(actor, body, newId, now, store).store;
      Detail(actor, newId, s') == Reply(Ok200, Some(s'.collections[newId]))
  {
  }
}

=== FILE: common.dfy ===
/** Vocabulary shared by every handler: identifiers, the optional value,
    the JSON values a request body carries, HTTP statuses and the
    authenticated actor. */
module Common {

  /** A document identifier, in the hexadecimal string form that
      `ObjectId.toString()` produces and that the token's `user_id` carries. */
  type Id = string

  datatype Option<+T> = None | Some(value: T) {
    function GetOr(default: T): T {
      match this
      case Some(v) => v
      case None => default
    }
  }

  /** A JSON value as the validators and handlers inspect it. A field that is
      absent from the body (JavaScript `undefined`) is `None` of an
      `Option<Json>`, never a `Json`. */
  datatype Json =
    | JNull
    | JBool(b: bool)
    | JNum(n: real)
    | JStr(s: string)
    | JArr(items: seq<Json>)
    | JObj

  /** What `mongoose.Types.ObjectId.isValid`, and the cast to an ObjectId that
      a later query or save applies, make of a request value: not a valid id
      (the validator refuses it), a valid id the cast turns into `id`, or a
      value `isValid` accepts but the cast throws on. A JSON number is of the
      last kind: `isValid(5)` holds, yet the cast builds an ObjectId from the
      text "5" and throws. */
  datatype IdCast = NotAnId | CastsTo(id: Id) | CastThrows

  /** JavaScript truthiness of a body field: `undefined`, `null`, `false`, `0`
      and `""` are falsy, everything else (arrays and objects included) is truthy. */
  predicate Truthy(v: Option<Json>) {
    match v
    case None => false
    case Some(JNull) => false
    case Some(JBool(b)) => b
    case Some(JNum(n)) => n != 0.0
    case Some(JStr(s)) => |s| > 0
    case Some(JArr(_)) => true
    case Some(JObj) => true
  }

  /** The `notEmpty().isString()` validator chain: present, a string, not "". */
  predicate IsNonEmptyString(v: Option<Json>) {
    v.Some? && v.value.JStr? && |v.value.s| > 0
  }

  /** The HTTP statuses the handlers answer with. `NoContent204` is what the
      note and collection handlers send for a missing document;
      `InternalError500` is what Express sends when a handler throws. */
  datatype Status =
    | Ok200
    | Created201
    | NoContent204
    | BadRequest400
    | Forbidden403
    | NotFound404
    | InternalError500

  /** The identity the JWT gate attached to the request (`req.user`). */
  datatype Actor = Actor(userId: Id, isAdmin: bool)

  /** The uniform authorisation rule: the owner, or any admin. */
  predicate OwnerOrAdmin(actor: Actor, owner: Id) {
    actor.isAdmin || actor.userId == owner
  }

  /** A middleware outcome: either the normalised value handed on to
      `next()`, or the status the request was rejected with. */
  datatype Result<+T> = Accepted(value: T) | Rejected(status: Status)

  /** A read-only handler's answer: a status and, on success, the document. */
  datatype Reply<+T> = Reply(status: Status, body: Option<T>)
}

=== FILE: decimal.dfy ===
/** Decimal integer text: the `isInt` check of the query validator, the value
    `toInt`/`parseInt(…, 10)` reads from such text, and the text `String(n)`
    writes for an integer. */
module Decimal {

  predicate IsDigit(c: char) {
    '0' <= c <= '9'
  }

  predicate AllDigits(s: string) {
    forall i :: 0 <= i < |s| ==> IsDigit(s[i])
  }

  function DigitValue(c: char): (d: nat)
    requires IsDigit(c)
    ensures d < 10
  {
    (c as int) - ('0' as int)
  }

  function DigitChar(d: nat): (c: char)
    requires d < 10
    ensures IsDigit(c) && DigitValue(c) == d
  {
    (('0' as int) + d) as char
  }

  /** Value of a run of decimal digits, most significant first. */
  function DigitsValue(s: string): nat
    requires AllDigits(s)
  {
    if |s| == 0 then 0 else DigitsValue(s[..|s| - 1]) * 10 + DigitValue(s[|s| - 1])
  }

  /** `isInt` with leading zeros allowed: an optional sign followed by at
      least one digit, nothing else (no blanks, no exponent). */
  predicate IsIntText(s: string) {
    if |s| > 0 && (s[0] == '+' || s[0] == '-') then
      |s| > 1 && AllDigits(s[1..])
    else
      |s| > 0 && AllDigits(s)
  }

  /** The integer that integer text denotes. */
  function IntValue(s: string): int
    requires IsIntText(s)
  {
    if s[0] == '-' then -(DigitsValue(s[1..]) as int)
    else if s[0] == '+' then DigitsValue(s[1..])
    else DigitsValue(s)
  }

  /** Digit text without superfluous leading zeros: what `String(n)` writes. */
  predicate IsCanonical(s: string) {
    |s| > 0 && AllDigits(s) && (|s| == 1 || s[0] != '0')
  }

  /** `String(n)` for a natural number. */
  function NatToText(n: nat): (s: string)
    ensures IsCanonical(s)
    ensures n >= 10 ==> |s| >= 2
  {
    if n < 10 then [DigitChar(n)] else NatToText(n / 10) + [DigitChar(n % 10)]
  }

  /** `String(i)` for an integer. */
  function IntToText(i: int): string {
    if i < 0 then "-" + NatToText(-i) else NatToText(i)
  }

  /** Reading back the text written for `n` gives `n`. */
  lemma {:induction false} NatTextRoundTrip(n: nat)
    ensures DigitsValue(NatToText(n)) == n
  {
    if n >= 10 {
      var s := NatToText(n);
      assert s[..|s| - 1] == NatToText(n / 10);
      NatTextRoundTrip(n / 10);
    }
  }

  /** Canonical digit text with a leading non-zero digit denotes at least 1. */
  lemma {:induction false} LeadingDigitPositive(s: string)
    requires IsCanonical(s) && s[0] != '0'
    ensures DigitsValue(s) >= 1
  {
    if |s| > 1 {
      LeadingDigitPositive(s[..|s| - 1]);
    }
  }

  /** The converse direction: writing the value of canonical text gives the
      same text back, so canonical text and natural numbers are in bijection. */
  lemma {:induction false} TextNatRoundTrip(s: string)
    requires IsCanonical(s)
    ensures NatToText(DigitsValue(s)) == s
  {
    if |s| > 1 {
      var p := s[..|s| - 1];
      assert IsCanonical(p);
      LeadingDigitPositive(p);
      TextNatRoundTrip(p);
      var v := DigitsValue(s);
      assert v / 10 == DigitsValue(p) && v % 10 == DigitValue(s[|s| - 1]);
      assert s == p + [s[|s| - 1]];
    }
  }

  /** Every integer's text passes `isInt` and reads back as that integer. */
  lemma IntTextRoundTrip(i: int)
    ensures IsIntText(IntToText(i))
    ensures IntValue(IntToText(i)) == i
  {
    var t := IntToText(i);
    if i < 0 {
      assert t[1..] == NatToText(-i);
      NatTextRoundTrip(-i);
    } else {
      NatTextRoundTrip(i);
    }
  }
}

=== FILE: legacy_notes.dfy ===
/** The note handlers of the earlier server, in which a note carries a list of
    collection ids and the handlers never look collections up. */
module LegacyNotes {
  import opened Common
  import opened Listing

  datatype LegacyNote = LegacyNote(
    title: string,
    description: string,
    owner: Id,
    collections: seq<Id>,
    createdAt: int,
    updatedAt: int)

  /** The earlier server keeps notes only. */
  type NoteStore = map<Id, LegacyNote>

  datatype LegacyOutcome = LegacyOutcome(status: Status, notes: NoteStore)

  datatype LegacyBody = LegacyBody(
    title: Option<Json>,
    description: Option<Json>,
    belongsToNoteCollection: Option<Json>)

  /** Every element passes `ObjectId.isValid`. */
  predicate AllValidIds(items: seq<Json>, objectId: Json -> IdCast) {
    forall i :: 0 <= i < |items| ==> !objectId(items[i]).NotAnId?
  }

  /** Every element also survives the cast to an ObjectId. */
  predicate AllCastable(items: seq<Json>, objectId: Json -> IdCast) {
    forall i :: 0 <= i < |items| ==> objectId(items[i]).CastsTo?
  }

  /** This server's `noteValidator`: the collection reference, when present
      (even `null`), must be an array of valid ids. */
  predicate ValidLegacyBody(body: LegacyBody, objectId: Json -> IdCast) {
    && IsNonEmptyString(body.title)
    && IsNonEmptyString(body.description)
    && (body.belongsToNoteCollection.None? ||
        (body.belongsToNoteCollection.value.JArr? &&
         AllValidIds(body.belongsToNoteCollection.value.items, objectId)))
  }

  /** The collection list, if any, survives the cast `save` and
      `findByIdAndUpdate` apply; when it does not, they throw (500). */
  predicate ListCasts(body: LegacyBody, objectId: Json -> IdCast) {
    body.belongsToNoteCollection.None? ||
    (body.belongsToNoteCollection.value.JArr? && AllCastable(body.belongsToNoteCollection.value.items, objectId))
  }

  /** The ids an array is cast to, in order. */
  function CastIds(items: seq<Json>, objectId: Json -> IdCast): (ids: seq<Id>)
    requires AllCastable(items, objectId)
    ensures |ids| == |items|
    ensures forall i :: 0 <= i < |items| ==> objectId(items[i]) == CastsTo(ids[i])
  {
    if |items| == 0 then [] else [objectId(items[0]).id] + CastIds(items[1..], objectId)
  }

  /** `req.body.belongsToNoteCollection || []`: an array is always truthy, so
      a present (validated) list is kept and an absent one becomes empty. */
  function RequestedCollections(body: LegacyBody, objectId: Json -> IdCast): (ids: seq<Id>)
    requires ValidLegacyBody(body, objectId) && ListCasts(body, objectId)
    ensures body.belongsToNoteCollection.None? ==> ids == []
    ensures body.belongsToNoteCollection.Some? ==>
      |ids| == |body.belongsToNoteCollection.value.items|
      && forall i :: 0 <= i < |ids| ==> objectId(body.belongsToNoteCollection.value.items[i]) == CastsTo(ids[i])
  {
    if body.belongsToNoteCollection.None? then [] else CastIds(body.belongsToNoteCollection.value.items, objectId)
  }

  /** What the validators guarantee of every stored note. */
  predicate Filled(notes: NoteStore) {
    forall id :: id in notes ==> |notes[id].title| > 0 && |notes[id].description| > 0
  }

  /** A change made on behalf of a non-admin left every other user's note
      alone: no such note appeared, disappeared or changed. */
  predicate ForeignNotesUntouched(actor: Actor, notes: NoteStore, notes': NoteStore) {
    actor.isAdmin ||
    ( && (forall id :: id in notes && notes[id].owner != actor.userId ==> id in notes' && notes'[id] == notes[id])
      && (forall id :: id in notes' && notes'[id].owner != actor.userId ==> id in notes && notes[id] == notes'[id]))
  }

  /** No surviving note changed owner or creation time. */
  predicate NoteOwnersFixed(notes: NoteStore, notes': NoteStore) {
    forall id :: id in notes && id in notes' ==>
      notes'[id].owner == notes[id].owner && notes'[id].createdAt == notes[id].createdAt
  }

  function LegacyAccess(actor: Actor, id: Id, notes: NoteStore): Option<Status> {
    if id !in notes then Some(NoContent204)
    else if !OwnerOrAdmin(actor, notes[id].owner) then Some(Forbidden403)
    else None
  }

  /** `list`: the same filter and order as the current server. */
  method List(actor: Actor, title: Option<string>, titleMatches: (string, string) -> bool, notes: NoteStore)
    returns (docs: seq<(Id, LegacyNote)>)
    ensures forall i :: 0 <= i < |docs| ==> docs[i].0 in notes && docs[i].1 == notes[docs[i].0]
    ensures forall i :: 0 <= i < |docs| ==> titleMatches(title.GetOr(""), docs[i].1.title)
    ensures forall i :: 0 <= i < |docs| ==> !actor.isAdmin ==> docs[i].1.owner == actor.userId
    ensures forall id :: (id in notes && titleMatches(title.GetOr(""), notes[id].title)
                          && OwnerOrAdmin(actor, notes[id].owner)) ==> id in KeysOf(docs)
    ensures forall i, j :: 0 <= i < j < |docs| ==> docs[i].1.createdAt >= docs[j].1.createdAt
    ensures Distinct(docs)
  {
    var pattern := title.GetOr("");
    var keep := (n: LegacyNote) => titleMatches(pattern, n.title) && (actor.isAdmin || n.owner == actor.userId);
    var newestFirst := (a: (Id, LegacyNote), b: (Id, LegacyNote)) => a.1.createdAt >= b.1.createdAt;
    docs := SelectSorted(notes, keep, newestFirst);
  }

  /** `detail`. */
  function Detail(actor: Actor, id: Id, notes: NoteStore): (r: Reply<LegacyNote>)
    ensures id !in notes ==> r == Reply(NoContent204, None)
    ensures id in notes && !OwnerOrAdmin(actor, notes[id].owner) ==> r == Reply(Forbidden403, None)
    ensures r.status == Ok200 <==> id in notes && OwnerOrAdmin(actor, notes[id].owner)
    ensures r.status == Ok200 ==> r.body == Some(notes[id])
  {
    var denied := LegacyAccess(actor, id, notes);
    if denied.Some? then Reply(denied.value, None) else Reply(Ok200, Some(notes[id]))
  }

  /** `create`: no collection is looked up; the ids are stored as given, and
      an element `isValid` admits but the cast throws on makes `save` fail. */
  function Create(actor: Actor, body: LegacyBody, objectId: Json -> IdCast, newId: Id, now: int, notes: NoteStore)
    : (r: LegacyOutcome)
    requires newId !in notes
    ensures r.status in {Created201, BadRequest400, InternalError500}
    ensures !ValidLegacyBody(body, objectId) ==> r.status == BadRequest400
    ensures ValidLegacyBody(body, objectId) && !ListCasts(body, objectId) ==> r.status == InternalError500
    ensures r.status == Created201 <==> ValidLegacyBody(body, objectId) && ListCasts(body, objectId)
    ensures r.status != Created201 ==> r.notes == notes
    ensures r.status == Created201 ==>
      && newId in r.notes
      && r.notes == notes[newId := r.notes[newId]]
    ensures r.status == Created201 ==>
      var n := r.notes[newId];
      && n.owner == actor.userId
      && n.title == body.title.value.s
      && n.description == body.description.value.s
      && n.createdAt == now && n.updatedAt == now
      && (body.belongsToNoteCollection.None? ==> n.collections == [])
      && (body.belongsToNoteCollection.Some? ==>
            |n.collections| == |body.belongsToNoteCollection.value.items|
            && forall i :: 0 <= i < |n.collections| ==>
                 objectId(body.belongsToNoteCollection.value.items[i]) == CastsTo(n.collections[i]))
    ensures ForeignNotesUntouched(actor, notes, r.notes)
    ensures NoteOwnersFixed(notes, r.notes)
    ensures Filled(notes) ==> Filled(r.notes)
  {
    if !ValidLegacyBody(body, objectId) then LegacyOutcome(BadRequest400, notes)
    else if !ListCasts(body, objectId) then LegacyOutcome(InternalError500, notes)
    else
      var n := LegacyNote(body.title.value.s, body.description.value.s, actor.userId,
                          RequestedCollections(body, objectId), now, now);
      LegacyOutcome(Created201, notes[newId := n])
  }

  /** `delete`. */
  function Delete(actor: Actor, id: Id, notes: NoteStore): (r: LegacyOutcome)
    ensures r.status in {Ok200, NoContent204, Forbidden403}
    ensures r.status != Ok200 ==> r.notes == notes
    ensures id !in notes ==> r.status == NoContent204
    ensures id in notes && !OwnerOrAdmin(actor, notes[id].owner) ==> r.status == Forbidden403
    ensures r.status == Ok200 <==> id in notes && OwnerOrAdmin(actor, notes[id].owner)
    ensures r.status == Ok200 ==>
      r.notes.Keys == notes.Keys - {id} && forall other :: other in r.notes ==> r.notes[other] == notes[other]
    ensures ForeignNotesUntouched(actor, notes, r.notes)
    ensures NoteOwnersFixed(notes, r.notes)
    ensures Filled(notes) ==> Filled(r.notes)
  {
    var denied := LegacyAccess(actor, id, notes);
    if denied.Some? then LegacyOutcome(denied.value, notes) else LegacyOutcome(Ok200, notes - {id})
  }

  /** `update`: validation (400), lookup (204), access (403), then title,
      description and the whole collection list are replaced, unless the
      cast of the list throws (500). */
  function Update(actor: Actor, id: Id, body: LegacyBody, objectId: Json -> IdCast, now: int, notes: NoteStore)
    : (r: LegacyOutcome)
    ensures r.status in {Ok200, NoContent204, BadRequest400, Forbidden403, InternalError500}
    ensures r.status != Ok200 ==> r.notes == notes
    ensures !ValidLegacyBody(body, objectId) ==> r.status == BadRequest400
    ensures ValidLegacyBody(body, objectId) && id !in notes ==> r.status == NoContent204
    ensures ValidLegacyBody(body, objectId) && id in notes && !OwnerOrAdmin(actor, notes[id].owner)
            ==> r.status == Forbidden403
    ensures (ValidLegacyBody(body, objectId) && id in notes && OwnerOrAdmin(actor, notes[id].owner)
             && !ListCasts(body, objectId)) ==> r.status == InternalError500
    ensures r.status == Ok200 <==>
      ValidLegacyBody(body, objectId) && ListCasts(body, objectId) && id in notes && OwnerOrAdmin(actor, notes[id].owner)
    ensures r.status == Ok200 ==>
      r.notes.Keys == notes.Keys && forall other :: other in notes && other != id ==> r.notes[other] == notes[other]
    ensures r.status == Ok200 ==>
      var (n, n') := (notes[id], r.notes[id]);
      && n'.title == body.title.value.s
      && n'.description == body.description.value.s
      && n'.collections == RequestedCollections(body, objectId)
      && (body.belongsToNoteCollection.None? ==> n'.collections == [])
      && n'.owner == n.owner
      && n'.createdAt == n.createdAt
      && n'.updatedAt == now
    ensures ForeignNotesUntouched(actor, notes, r.notes)
    ensures NoteOwnersFixed(notes, r.notes)
    ensures Filled(notes) ==> Filled(r.notes)
  {
    if !ValidLegacyBody(body, objectId) then LegacyOutcome(BadRequest400, notes)
    else
      var denied := LegacyAccess(actor, id, notes);
      if denied.Some? then LegacyOutcome(denied.value, notes)
      else if !ListCasts(body, objectId) then LegacyOutcome(InternalError500, notes)
      else
        var n' := notes[id].(title := body.title.value.s, description := body.description.value.s,
                             collections := RequestedCollections(body, objectId), updatedAt := now);
        LegacyOutcome(Ok200, notes[id := n'])
  }

  /** An array holding anything that is not a valid id is refused, and
      nothing is stored. */
  lemma InvalidElementRejected(actor: Actor, body: LegacyBody, objectId: Json -> IdCast, newId: Id, now: int,
                               notes: NoteStore, k: nat)
    requires newId !in notes
    requires body.belongsToNoteCollection.Some? && body.belongsToNoteCollection.value.JArr?
    requires k < |body.belongsToNoteCollection.value.items|
    requires objectId(body.belongsToNoteCollection.value.items[k]).NotAnId?
    ensures Create(actor, body, objectId, newId, now, notes) == LegacyOutcome(BadRequest400, notes)
  {
  }

  /** A validated array holding an element the cast throws on (a number such
      as 0, which `isValid` admits) makes `create` fail with 500, and
      nothing is stored. */
  lemma UncastableElementFails(actor: Actor, body: LegacyBody, objectId: Json -> IdCast, newId: Id, now: int,
                               notes: NoteStore, k: nat)
    requires newId !in notes
    requires ValidLegacyBody(body, objectId)
    requires body.belongsToNoteCollection.Some? && k < |body.belongsToNoteCollection.value.items|
    requires objectId(body.belongsToNoteCollection.value.items[k]).CastThrows?
    ensures Create(actor, body, objectId, newId, now, notes) == LegacyOutcome(InternalError500, notes)
  {
  }

  /** A note just created is the one its creator reads back. */
  lemma CreateThenDetail(actor: Actor, body: LegacyBody, objectId: Json -> IdCast, newId: Id, now: int,
                         notes: NoteStore)
    requires newId !in notes
    requires Create(actor, body, objectId, newId, now, notes).status == Created201
    ensures var n' := Create(actor, body, objectId, newId, now, notes).notes;
      Detail(actor, newId, n') == Reply(Ok200, Some(n'[newId]))
  {
  }

  /** A note just deleted is gone for everyone, admins included. */
  lemma DeleteThenDetail(actor: Actor, reader: Actor, id: Id, notes: NoteStore)
    requires id in notes && OwnerOrAdmin(actor, notes[id].owner)
    ensures Delete(actor, id, notes).status == Ok200
    ensures Detail(reader, id, Delete(actor, id, notes).notes) == Reply(NoContent204, None)
  {
  }
}

=== FILE: listing.dfy ===
/** Listing documents of a store: select those a filter keeps and order them
    by a sort key, as `find(filter).sort(key)` does. */
module Listing {
  import opened Common

  /** A comparison a sort may use: any two documents compare one way or the
      other, and comparisons chain. Ties are allowed; their order is unspecified. */
  ghost predicate TotalPreorder<T(!new)>(leq: (T, T) -> bool) {
    && (forall a, b :: leq(a, b) || leq(b, a))
    && (forall a, b, c :: leq(a, b) && leq(b, c) ==> leq(a, c))
  }

  predicate SortedBy<T>(s: seq<T>, leq: (T, T) -> bool) {
    forall i, j :: 0 <= i < j < |s| ==> leq(s[i], s[j])
  }

  /** Where `x` goes in a sorted list: after every element it must follow. */
  function InsertPos<T>(s: seq<T>, x: T, leq: (T, T) -> bool): (k: nat)
    ensures k <= |s|
    ensures forall i :: 0 <= i < k ==> !leq(x, s[i])
    ensures k < |s| ==> leq(x, s[k])
  {
    if |s| == 0 || leq(x, s[0]) then 0 else 1 + InsertPos(s[1..], x, leq)
  }

  lemma InsertKeepsSorted<T(!new)>(s: seq<T>, x: T, leq: (T, T) -> bool)
    requires TotalPreorder(leq)
    requires SortedBy(s, leq)
    ensures var k := InsertPos(s, x, leq); SortedBy(s[..k] + [x] + s[k..], leq)
  {
    var k := InsertPos(s, x, leq);
    var r := s[..k] + [x] + s[k..];
    forall i, j | 0 <= i < j < |r|
      ensures leq(r[i], r[j])
    {
      if i < k && j == k {
        assert !leq(x, s[i]);
      } else if i == k && j > k {
        assert r[j] == s[j - 1];
        if j - 1 > k {
          assert leq(s[k], s[j - 1]);
        }
      } else if i < k && j > k {
        assert r[j] == s[j - 1];
        assert leq(s[i], s[j - 1]);
      }
    }
  }

  /** The identifiers listed. */
  function KeysOf<T>(docs: seq<(Id, T)>): set<Id> {
    set i | 0 <= i < |docs| :: docs[i].0
  }

  /** No identifier is listed twice. */
  predicate Distinct<T>(docs: seq<(Id, T)>) {
    forall i, j :: 0 <= i < j < |docs| ==> docs[i].0 != docs[j].0
  }

  /** Inserting a document with a fresh identifier into a sorted listing. */
  function InsertBy<T(!new)>(s: seq<(Id, T)>, x: (Id, T), leq: ((Id, T), (Id, T)) -> bool)
    : (r: seq<(Id, T)>)
    requires TotalPreorder(leq)
    requires SortedBy(s, leq)
    ensures SortedBy(r, leq)
    ensures forall y :: y in r <==> y in s || y == x
    ensures KeysOf(r) == KeysOf(s) + {x.0}
    ensures Distinct(s) && x.0 !in KeysOf(s) ==> Distinct(r)
  {
    var k := InsertPos(s, x, leq);
    InsertKeepsSorted(s, x, leq);
    InsertKeepsKeys(s, x, k);
    s[..k] + [x] + s[k..]
  }

  lemma InsertKeepsKeys<T>(s: seq<(Id, T)>, x: (Id, T), k: nat)
    requires k <= |s|
    ensures var r := s[..k] + [x] + s[k..];
      && (forall y :: y in r <==> y in s || y == x)
      && KeysOf(r) == KeysOf(s) + {x.0}
      && (Distinct(s) && x.0 !in KeysOf(s) ==> Distinct(r))
  {
    var r := s[..k] + [x] + s[k..];
    assert forall i :: 0 <= i < k ==> r[i] == s[i];
    assert forall i :: k < i < |r| ==> r[i] == s[i - 1];
    assert r[k] == x;
    assert s == s[..k] + s[k..];
    forall other | other in KeysOf(s)
      ensures other in KeysOf(r)
    {
      var i :| 0 <= i < |s| && s[i].0 == other;
      if i < k {
        assert r[i].0 == other;
      } else {
        assert r[i + 1].0 == other;
      }
    }
    assert x.0 in KeysOf(r);
    forall other | other in KeysOf(r)
      ensures other in KeysOf(s) + {x.0}
    {
      var i :| 0 <= i < |r| && r[i].0 == other;
      if i < k {
        assert s[i].0 == other;
      } else if i > k {
        assert s[i - 1].0 == other;
      }
    }
    if Distinct(s) && x.0 !in KeysOf(s) {
      forall i, j | 0 <= i < j < |r|
        ensures r[i].0 != r[j].0
      {
        if i == k {
          assert r[j] == s[j - 1];
          assert s[j - 1].0 in KeysOf(s);
        } else if j == k {
          assert s[i].0 in KeysOf(s);
        }
      }
    }
  }

  /** Every document of `m` that `keep` accepts, each once, with its
      identifier, ordered by `leq`. */
  method SelectSorted<T(!new)>(m: map<Id, T>, keep: T -> bool, leq: ((Id, T), (Id, T)) -> bool)
    returns (docs: seq<(Id, T)>)
    requires TotalPreorder(leq)
    ensures SortedBy(docs, leq)
    ensures forall i :: 0 <= i < |docs| ==> docs[i].0 in m && docs[i].1 == m[docs[i].0] && keep(docs[i].1)
    ensures forall id :: id in m && keep(m[id]) ==> id in KeysOf(docs)
    ensures Distinct(docs)
  {
    docs := [];
    var todo := m.Keys;
    while todo != {}
      invariant todo <= m.Keys
      invariant SortedBy(docs, leq)
      invariant forall y :: y in docs ==> y.0 in m && y.1 == m[y.0] && keep(y.1) && y.0 !in todo
      invariant forall id :: id in m && id !in todo && keep(m[id]) ==> id in KeysOf(docs)
      invariant KeysOf(docs) !! todo
      invariant Distinct(docs)
      decreases todo
    {
      var id :| id in todo;
      if keep(m[id]) {
        docs := InsertBy(docs, (id, m[id]), leq);
      }
      todo := todo - {id};
    }
    assert forall i :: 0 <= i < |docs| ==> docs[i] in docs;
  }

  /** The database's default string order: character by character, a
      proper prefix first. */
  predicate LexLeq(a: string, b: string) {
    |a| == 0 || (|b| > 0 && (a[0] < b[0] || (a[0] == b[0] && LexLeq(a[1..], b[1..]))))
  }

  lemma {:induction false} LexLeqTotal(a: string, b: string)
    ensures LexLeq(a, b) || LexLeq(b, a)
  {
    if |a| > 0 && |b| > 0 && a[0] == b[0] {
      LexLeqTotal(a[1..], b[1..]);
    }
  }

  lemma {:induction false} LexLeqTransitive(a: string, b: string, c: string)
    requires LexLeq(a, b) && LexLeq(b, c)
    ensures LexLeq(a, c)
  {
    if |a| > 0 && a[0] == b[0] && b[0] == c[0] {
      LexLeqTransitive(a[1..], b[1..], c[1..]);
    }
  }

  /** Ordering documents by a string key is a valid sort comparison. */
  lemma ByNameIsTotalPreorder<T(!new)>(leq: ((Id, T), (Id, T)) -> bool, name: T -> string)
    requires forall a, b :: leq(a, b) == LexLeq(name(a.1), name(b.1))
    ensures TotalPreorder(leq)
  {
    forall a, b
      ensures leq(a, b) || leq(b, a)
    {
      LexLeqTotal(name(a.1), name(b.1));
    }
    forall a, b, c | leq(a, b) && leq(b, c)
      ensures leq(a, c)
    {
      LexLeqTransitive(name(a.1), name(b.1), name(c.1));
    }
  }
}

=== FILE: notes.dfy ===
/** The note handlers of the current server: list, detail, create, delete and
    update, each one atomic step over the store. */
module Notes {
  import opened Common
  import opened Records
  import opened Listing

  /** The fields of a create or update request body. */
  datatype NoteBody = NoteBody(
    title: Option<Json>,
    description: Option<Json>,
    belongsToNoteCollection: Option<Json>)

  /** `noteValidator`: title and description are non-empty strings; a
      collection reference, when present at all (even `null`), must pass
      `ObjectId.isValid`. */
  predicate ValidNoteBody(body: NoteBody, objectId: Json -> IdCast) {
    && IsNonEmptyString(body.title)
    && IsNonEmptyString(body.description)
    && (body.belongsToNoteCollection.None? || !objectId(body.belongsToNoteCollection.value).NotAnId?)
  }

  /** The reference is truthy, so `findById` runs on it, and the cast of it
      to an ObjectId throws: the request ends in 500. */
  predicate ReferenceCastThrows(body: NoteBody, objectId: Json -> IdCast) {
    Truthy(body.belongsToNoteCollection) && objectId(body.belongsToNoteCollection.value).CastThrows?
  }

  /** `req.body.belongsToNoteCollection || null`: a falsy reference, valid or
      not, means no collection. */
  function RequestedCollection(body: NoteBody, objectId: Json -> IdCast): (target: Option<Id>)
    requires ValidNoteBody(body, objectId) && !ReferenceCastThrows(body, objectId)
    ensures target.None? <==> !Truthy(body.belongsToNoteCollection)
    ensures target.Some? ==> objectId(body.belongsToNoteCollection.value) == CastsTo(target.value)
  {
    if Truthy(body.belongsToNoteCollection) then Some(objectId(body.belongsToNoteCollection.value).id) else None
  }

  /** The collection check of create and update, run before anything is
      written: a missing collection is a bad request, another user's
      collection is forbidden to a non-admin, and an ownerless one makes a
      non-admin's request throw on `collection.user.toString()`. */
  function CollectionCheck(actor: Actor, target: Option<Id>, store: Store): (r: Option<Status>)
    ensures r.None? <==>
      target.None? || (target.value in store.collections && MayUseCollection(actor, store.collections[target.value]))
    ensures r == Some(BadRequest400) <==> target.Some? && target.value !in store.collections
    ensures r == Some(Forbidden403) <==>
      && target.Some? && target.value in store.collections && !actor.isAdmin
      && store.collections[target.value].owner.Some?
      && store.collections[target.value].owner.value != actor.userId
    ensures r == Some(InternalError500) <==>
      && target.Some? && target.value in store.collections && !actor.isAdmin
      && store.collections[target.value].owner.None?
  {
    if target.None? then None
    else if target.value !in store.collections then Some(BadRequest400)
    else
      var c := store.collections[target.value];
      if actor.isAdmin then None
      else if c.owner.None? then Some(InternalError500)
      else if c.owner.value != actor.userId then Some(Forbidden403)
      else None
  }

  /** The lookup and access check shared by detail, delete and update. */
  function NoteAccess(actor: Actor, id: Id, store: Store): Option<Status> {
    if id !in store.notes then Some(NoContent204)
    else if !OwnerOrAdmin(actor, store.notes[id].owner) then Some(Forbidden403)
    else None
  }

  /** The filter `list` hands to `find`: the title pattern, and the owner
      for everyone but an admin. */
  datatype NoteFilter = NoteFilter(titlePattern: string, owner: Option<Id>)

  function ListFilter(actor: Actor, title: Option<string>): (f: NoteFilter)
    ensures title.Some? ==> f.titlePattern == title.value
    ensures title.None? ==> f.titlePattern == ""
    ensures f.owner.None? <==> actor.isAdmin
    ensures f.owner.Some? ==> f.owner.value == actor.userId
  {
    NoteFilter(title.GetOr(""), if actor.isAdmin then None else Some(actor.userId))
  }

  /** `titleMatches(pattern, title)` stands for the case-insensitive regular
      expression built from the pattern. */
  predicate MatchesFilter(f: NoteFilter, n: Note, titleMatches: (string, string) -> bool) {
    titleMatches(f.titlePattern, n.title) && (f.owner.None? || f.owner.value == n.owner)
  }

  /** `list`: the notes whose title matches, restricted to the actor's own
      unless the actor is an admin, newest first. */
  method List(actor: Actor, title: Option<string>, titleMatches: (string, string) -> bool, store: Store)
    returns (docs: seq<(Id, Note)>)
    ensures forall i :: 0 <= i < |docs| ==> docs[i].0 in store.notes && docs[i].1 == store.notes[docs[i].0]
    ensures forall i :: 0 <= i < |docs| ==> titleMatches(title.GetOr(""), docs[i].1.title)
    ensures forall i :: 0 <= i < |docs| ==> !actor.isAdmin ==> docs[i].1.owner == actor.userId
    ensures forall id :: (id in store.notes && titleMatches(title.GetOr(""), store.notes[id].title)
                          && OwnerOrAdmin(actor, store.notes[id].owner)) ==> id in KeysOf(docs)
    ensures forall i, j :: 0 <= i < j < |docs| ==> docs[i].1.createdAt >= docs[j].1.createdAt
    ensures Distinct(docs)
  {
    var f := ListFilter(actor, title);
    var newestFirst := (a: (Id, Note), b: (Id, Note)) => a.1.createdAt >= b.1.createdAt;
    docs := SelectSorted(store.notes, (n: Note) => MatchesFilter(f, n, titleMatches), newestFirst);
  }

  /** `detail`. */
  function Detail(actor: Actor, id: Id, store: Store): (r: Reply<Note>)
    ensures id !in store.notes ==> r == Reply(NoContent204, None)
    ensures id in store.notes && !OwnerOrAdmin(actor, store.notes[id].owner) ==> r == Reply(Forbidden403, None)
    ensures r.status == Ok200 <==> id in store.notes && OwnerOrAdmin(actor, store.notes[id].owner)
    ensures r.status == Ok200 ==> r.body == Some(store.notes[id])
  {
    var denied := NoteAccess(actor, id, store);
    if denied.Some? then Reply(denied.value, None) else Reply(Ok200, Some(store.notes[id]))
  }

  /** `create`: validation (400), a reference the cast throws on (500), the
      collection check, then the insert. `newId` is the fresh identifier the
      database assigns and `now` the clock reading the timestamps take. */
  function Create(actor: Actor, body: NoteBody, objectId: Json -> IdCast, newId: Id, now: int, store: Store)
    : (r: Outcome)
    requires newId !in store.notes
    ensures r.status in {Created201, BadRequest400, Forbidden403, InternalError500}
    ensures r.status != Created201 ==> r.store == store
    ensures !ValidNoteBody(body, objectId) ==> r.status == BadRequest400
    ensures ValidNoteBody(body, objectId) && ReferenceCastThrows(body, objectId) ==> r.status == InternalError500
    ensures ValidNoteBody(body, objectId) && !ReferenceCastThrows(body, objectId)
            ==> r.status == (if CollectionCheck(actor, RequestedCollection(body, objectId), store).Some?
                             then CollectionCheck(actor, RequestedCollection(body, objectId), store).value
                             else Created201)
    ensures r.status == Created201 ==>
      && ValidNoteBody(body, objectId) && !ReferenceCastThrows(body, objectId)
      && newId in r.store.notes
      && r.store.notes == store.notes[newId := r.store.notes[newId]]
      && r.store.collections == store.collections
      && r.store.users == store.users
    ensures r.status == Created201 ==>
      var n := r.store.notes[newId];
      && n.owner == actor.userId
      && n.title == body.title.value.s
      && n.description == body.description.value.s
      && n.createdAt == now && n.updatedAt == now
      && n.collection == RequestedCollection(body, objectId)
      && (n.collection.None? <==> !Truthy(body.belongsToNoteCollection))
      && (n.collection.Some? ==>
            n.collection.value in store.collections && MayUseCollection(actor, store.collections[n.collection.value]))
    ensures ForeignUntouched(actor, store, r.store)
    ensures OwnersFixed(store, r.store)
    ensures WellFormed(store) ==> WellFormed(r.store)
  {
    if !ValidNoteBody(body, objectId) then Outcome(BadRequest400, store)
    else if ReferenceCastThrows(body, objectId) then Outcome(InternalError500, store)
    else
      var target := RequestedCollection(body, objectId);
      var refused := CollectionCheck(actor, target, store);
      if refused.Some? then Outcome(refused.value, store)
      else
        var n := Note(body.title.value.s, body.description.value.s, actor.userId, target, now, now);
        Outcome(Created201, store.(notes := store.notes[newId := n]))
  }

  /** `delete`. */
  function Delete(actor: Actor, id: Id, store: Store): (r: Outcome)
    ensures r.status in {Ok200, NoContent204, Forbidden403}
    ensures r.status != Ok200 ==> r.store == store
    ensures id !in store.notes ==> r.status == NoContent204
    ensures id in store.notes && !OwnerOrAdmin(actor, store.notes[id].owner) ==> r.status == Forbidden403
    ensures r.status == Ok200 <==> id in store.notes && OwnerOrAdmin(actor, store.notes[id].owner)
    ensures r.status == Ok200 ==>
      && id !in r.store.notes
      && r.store.notes.Keys == store.notes.Keys - {id}
      && (forall other :: other in r.store.notes ==> r.store.notes[other] == store.notes[other])
      && r.store.collections == store.collections
      && r.store.users == store.users
    ensures ForeignUntouched(actor, store, r.store)
    ensures OwnersFixed(store, r.store)
    ensures WellFormed(store) ==> WellFormed(r.store)
  {
    var denied := NoteAccess(actor, id, store);
    if denied.Some? then Outcome(denied.value, store)
    else Outcome(Ok200, store.(notes := store.notes - {id}))
  }

  /** `update`. Every check runs before the single write: validation (400),
      lookup (204), access (403), a reference the cast throws on (500), then
      the collection check (400, 403, or a throw for a non-admin naming an
      ownerless collection). */
  function Update(actor: Actor, id: Id, body: NoteBody, objectId: Json -> IdCast, now: int, store: Store)
    : (r: Outcome)
    ensures r.status in {Ok200, NoContent204, BadRequest400, Forbidden403, InternalError500}
    ensures r.status != Ok200 ==> r.store == store
    ensures !ValidNoteBody(body, objectId) ==> r.status == BadRequest400
    ensures ValidNoteBody(body, objectId) && id !in store.notes ==> r.status == NoContent204
    ensures ValidNoteBody(body, objectId) && id in store.notes && !OwnerOrAdmin(actor, store.notes[id].owner)
            ==> r.status == Forbidden403
    ensures (ValidNoteBody(body, objectId) && id in store.notes && OwnerOrAdmin(actor, store.notes[id].owner)
             && ReferenceCastThrows(body, objectId)) ==> r.status == InternalError500
    ensures (ValidNoteBody(body, objectId) && id in store.notes && OwnerOrAdmin(actor, store.notes[id].owner)
             && !ReferenceCastThrows(body, objectId))
            ==> r.status == (if CollectionCheck(actor, RequestedCollection(body, objectId), store).Some?
                             then CollectionCheck(actor, RequestedCollection(body, objectId), store).value
                             else Ok200)
    ensures r.status == Ok200 ==>
      && ValidNoteBody(body, objectId) && !ReferenceCastThrows(body, objectId) && id in store.notes
      && r.store.notes.Keys == store.notes.Keys
      && (forall other :: other in store.notes && other != id ==> r.store.notes[other] == store.notes[other])
      && r.store.collections == store.collections
      && r.store.users == store.users
    ensures r.status == Ok200 ==>
      var (n, n') := (store.notes[id], r.store.notes[id]);
      && n'.title == body.title.value.s
      && n'.description == body.description.value.s
      && n'.collection == RequestedCollection(body, objectId)
      && n'.owner == n.owner
      && n'.createdAt == n.createdAt
      && n'.updatedAt == now
      && (n'.collection.Some? ==>
            n'.collection.value in store.collections && MayUseCollection(actor, store.collections[n'.collection.value]))
    ensures ForeignUntouched(actor, store, r.store)
    ensures OwnersFixed(store, r.store)
    ensures WellFormed(store) ==> WellFormed(r.store)
  {
    if !ValidNoteBody(body, objectId) then Outcome(BadRequest400, store)
    else
      var denied := NoteAccess(actor, id, store);
      if denied.Some? then Outcome(denied.value, store)
      else if ReferenceCastThrows(body, objectId) then Outcome(InternalError500, store)
      else
        var target := RequestedCollection(body, objectId);
        var refused := CollectionCheck(actor, target, store);
        if refused.Some? then Outcome(refused.value, store)
        else
          var n := store.notes[id];
          var n' := n.(title := body.title.value.s, description := body.description.value.s,
                       collection := target, updatedAt := now);
          Outcome(Ok200, store.(notes := store.notes[id := n']))
  }

  /** A note just created is the one its creator reads back. */
  lemma CreateThenDetail(actor: Actor, body: NoteBody, objectId: Json -> IdCast, newId: Id, now: int, store: Store)
    requires newId !in store.notes
    requires Create(actor, body, objectId, newId, now, store).status == Created201
    ensures var s' := Create(actor, body, objectId, newId, now, store).store;
      Detail(actor, newId, s') == Reply(Ok200, Some(s'.notes[newId]))
  {
  }

  /** A note just deleted is gone for everyone, admins included. */
  lemma DeleteThenDetail(actor: Actor, reader: Actor, id: Id, store: Store)
    requires Delete(actor, id, store).status == Ok200
    ensures Detail(reader, id, Delete(actor, id, store).store).status == NoContent204
  {
  }

  /** Repeating an update that succeeded, at any later clock reading `now'`,
      succeeds again and changes nothing but the note's update time; at the
      same reading it changes nothing at all. */
  lemma UpdateIdempotent(actor: Actor, id: Id, body: NoteBody, objectId: Json -> IdCast, now: int, now': int,
                         store: Store)
    requires Update(actor, id, body, objectId, now, store).status == Ok200
    ensures var s1 := Update(actor, id, body, objectId, now, store).store;
      Update(actor, id, body, objectId, now', s1)
        == Outcome(Ok200, s1.(notes := s1.notes[id := s1.notes[id].(updatedAt := now')]))
    ensures var s1 := Update(actor, id, body, objectId, now, store).store;
      now' == now ==> Update(actor, id, body, objectId, now', s1) == Outcome(Ok200, s1)
  {
  }
}

=== FILE: pagination.dfy ===
/** Page-number pagination: the query-parameter middleware that normalises
    `page` and `limit`, and the builder of the `first`/`previous`/`next`/`last`
    links sent with a page of notes. */
module Pagination {
  import opened Common
  import opened Decimal
  import opened SearchParams

  const DefaultPage: int := 1
  const DefaultLimit: int := 10
  /** No page ever holds more than this many documents, whatever is asked for. */
  const MaxLimit: int := 10

  /** What the middleware leaves in `req.paginate`. */
  datatype Paginate = Paginate(page: int, limit: int)

  /** `query(…).optional().isInt({min: 1})`: an absent parameter passes; a
      present one must be integer text whose value is at least 1. */
  predicate AcceptedParam(v: Option<string>) {
    v.None? || (IsIntText(v.value) && IntValue(v.value) >= 1)
  }

  function Min(a: int, b: int): int {
    if a <= b then a else b
  }

  /** The validator chain and the middleware after it: reject with 400 when
      either parameter fails validation; otherwise default the page to 1, the
      limit to 10, and cap the limit at 10. */
  function NormalizePaginate(page: Option<string>, limit: Option<string>): (r: Result<Paginate>)
    ensures r.Rejected? <==> !AcceptedParam(page) || !AcceptedParam(limit)
    ensures r.Rejected? ==> r.status == BadRequest400
    ensures r.Accepted? ==> r.value.page >= 1 && 1 <= r.value.limit <= MaxLimit
    ensures r.Accepted? && page.None? ==> r.value.page == DefaultPage
    ensures r.Accepted? && limit.None? ==> r.value.limit == DefaultLimit
    ensures r.Accepted? && page.Some? ==> r.value.page == IntValue(page.value)
    ensures r.Accepted? && limit.Some? && IntValue(limit.value) <= MaxLimit ==>
              r.value.limit == IntValue(limit.value)
    ensures r.Accepted? && limit.Some? && IntValue(limit.value) > MaxLimit ==>
              r.value.limit == MaxLimit
  {
    if !AcceptedParam(page) || !AcceptedParam(limit) then
      Rejected(BadRequest400)
    else
      var p := if page.Some? then IntValue(page.value) else DefaultPage;
      var l := if limit.Some? then IntValue(limit.value) else DefaultLimit;
      Accepted(Paginate(p, Min(l, MaxLimit)))
  }

  /** The middleware reads back the integers a client wrote with `String(n)`:
      any page at least 1 is kept, any limit at least 1 is capped at 10. */
  lemma NormalizeReadsWrittenNumbers(page: int, limit: int)
    requires page >= 1 && limit >= 1
    ensures NormalizePaginate(Some(IntToText(page)), Some(IntToText(limit)))
            == Accepted(Paginate(page, Min(limit, MaxLimit)))
  {
    IntTextRoundTrip(page);
    IntTextRoundTrip(limit);
  }

  /** A URL relative to the server: its path and its query parameters. */
  datatype Url = Url(path: string, query: Params)

  /** A navigation link: `''` when there is nowhere to go, else a URL. */
  datatype Link = NoLink | Href(url: Url)

  datatype PaginationLinks = PaginationLinks(first: Link, previous: Link, next: Link, last: Link)

  /** The inner `generatePaginationUrl`: the original URL with `page` and then
      `limit` set in its query. */
  function PageUrl(original: Url, page: int, limit: int): (u: Url)
    ensures u.path == original.path
    ensures Get(u.query, "page") == Some(IntToText(page))
    ensures Get(u.query, "limit") == Some(IntToText(limit))
    ensures Count(u.query, "page") == 1 && Count(u.query, "limit") == 1
    ensures Without(Without(u.query, "page"), "limit") == Without(Without(original.query, "page"), "limit")
  {
    var q1 := Set(original.query, "page", IntToText(page));
    var q2 := Set(q1, "limit", IntToText(limit));
    SetThenGet(original.query, "page", IntToText(page));
    SetOtherGet(q1, "limit", IntToText(limit), "page");
    SetThenGet(q1, "limit", IntToText(limit));
    SetOtherCount(q1, "limit", IntToText(limit), "page");
    WithoutSetCommute(q1, "limit", IntToText(limit), "page");
    SetKeepsOthers(original.query, "page", IntToText(page));
    SetKeepsOthers(Without(q1, "page"), "limit", IntToText(limit));
    Url(original.path, q2)
  }

  /** `generatePaginationLinks`: `first` and `last` always link to pages 1 and
      `totalPages`; `previous` only when there is a page before the current
      one, `next` only when there is one after it. */
  function GeneratePaginationLinks(original: Url, currentPage: int, totalPages: int, limit: int)
    : (r: PaginationLinks)
    ensures r.first == Href(PageUrl(original, 1, limit))
    ensures r.last == Href(PageUrl(original, totalPages, limit))
    ensures r.previous == NoLink <==> currentPage <= 1
    ensures r.previous != NoLink ==> r.previous == Href(PageUrl(original, currentPage - 1, limit))
    ensures r.next == NoLink <==> currentPage >= totalPages
    ensures r.next != NoLink ==> r.next == Href(PageUrl(original, currentPage + 1, limit))
  {
    var base := PaginationLinks(
      Href(PageUrl(original, 1, limit)), NoLink, NoLink, Href(PageUrl(original, totalPages, limit)));
    var withPrevious := if currentPage > 1 then base.(previous := Href(PageUrl(original, currentPage - 1, limit))) else base;
    if currentPage < totalPages then withPrevious.(next := Href(PageUrl(original, currentPage + 1, limit))) else withPrevious
  }

  /** The page a link points at, as the middleware would read it back. */
  function LinkTarget(link: Link): Result<Paginate>
    requires link.Href?
  {
    NormalizePaginate(Get(link.url.query, "page"), Get(link.url.query, "limit"))
  }

  /** Following `previous` or `next` from a request the middleware accepted
      lands on the neighbouring page with the same limit, and every link keeps
      the path and every other query parameter of the request. */
  lemma FollowingLinksMovesOnePage(original: Url, p: Paginate, totalPages: int)
    requires p.page >= 1 && 1 <= p.limit <= MaxLimit
    ensures var r := GeneratePaginationLinks(original, p.page, totalPages, p.limit);
      && (r.previous.Href? ==> LinkTarget(r.previous) == Accepted(Paginate(p.page - 1, p.limit)))
      && (r.next.Href? ==> LinkTarget(r.next) == Accepted(Paginate(p.page + 1, p.limit)))
      && LinkTarget(r.first) == Accepted(Paginate(1, p.limit))
      && (totalPages >= 1 ==> LinkTarget(r.last) == Accepted(Paginate(totalPages, p.limit)))
  {
    var r := GeneratePaginationLinks(original, p.page, totalPages, p.limit);
    NormalizeReadsWrittenNumbers(1, p.limit);
    if p.page > 1 {
      NormalizeReadsWrittenNumbers(p.page - 1, p.limit);
    }
    NormalizeReadsWrittenNumbers(p.page + 1, p.limit);
    if totalPages >= 1 {
      NormalizeReadsWrittenNumbers(totalPages, p.limit);
    }
  }

  /** When `totalPages` is 0, `last` points at page 0, which the middleware
      itself would refuse, whatever the current page. */
  lemma EmptyResultLastLinkRejected(original: Url, currentPage: int, limit: int)
    requires currentPage >= 1
    requires 1 <= limit <= MaxLimit
    ensures LinkTarget(GeneratePaginationLinks(original, currentPage, 0, limit).last) == Rejected(BadRequest400)
  {
    IntTextRoundTrip(0);
  }
}

=== FILE: records.dfy ===
/** The documents of the current server and the store that holds them. */
module Records {
  import opened Common

  /** A note. `collection` is `belongsToNoteCollection`: at most one
      collection, and nothing keeps it pointing at an existing one. */
  datatype Note = Note(
    title: string,
    description: string,
    owner: Id,
    collection: Option<Id>,
    createdAt: int,
    updatedAt: int)

  /** A note collection. The owner is optional: `delete` guards against a
      collection without one, so the model admits such documents, and the
      other handlers' behaviour on them is modelled as written. */
  datatype Collection = Collection(
    name: string,
    description: string,
    owner: Option<Id>,
    createdAt: int,
    updatedAt: int)

  /** An account. The password is opaque to the handlers modelled here. */
  datatype User = User(username: string, password: string, isAdmin: bool)

  datatype Store = Store(
    notes: map<Id, Note>,
    collections: map<Id, Collection>,
    users: map<Id, User>)

  /** A mutating handler's answer: the status and the store after it. */
  datatype Outcome = Outcome(status: Status, store: Store)

  /** `collection.user` belongs to `actor` (a missing owner belongs to nobody). */
  predicate OwnsCollection(actor: Actor, c: Collection) {
    c.owner == Some(actor.userId)
  }

  /** Who may put notes into a collection and who sees it in `list`: an
      admin, or the collection's owner. */
  predicate MayUseCollection(actor: Actor, c: Collection) {
    actor.isAdmin || OwnsCollection(actor, c)
  }

  /** What the validators guarantee of every document a handler writes. */
  predicate WellFormed(s: Store) {
    && (forall id :: id in s.notes ==> |s.notes[id].title| > 0 && |s.notes[id].description| > 0)
    && (forall id :: id in s.collections ==> |s.collections[id].name| > 0 && |s.collections[id].description| > 0)
  }

  /** A change made on behalf of `actor` left alone every note, collection
      and account that is not the actor's own, unless the actor is an admin:
      no such document appeared, disappeared or changed. */
  predicate ForeignUntouched(actor: Actor, s: Store, s': Store) {
    actor.isAdmin ||
    ( && (forall id :: id in s.notes && s.notes[id].owner != actor.userId ==>
            id in s'.notes && s'.notes[id] == s.notes[id])
      && (forall id :: id in s'.notes && s'.notes[id].owner != actor.userId ==>
            id in s.notes && s.notes[id] == s'.notes[id])
      && (forall id :: id in s.collections && !OwnsCollection(actor, s.collections[id]) ==>
            id in s'.collections && s'.collections[id] == s.collections[id])
      && (forall id :: id in s'.collections && !OwnsCollection(actor, s'.collections[id]) ==>
            id in s.collections && s.collections[id] == s'.collections[id])
      && (forall id :: id in s.users && id != actor.userId ==>
            id in s'.users && s'.users[id] == s.users[id])
      && (forall id :: id in s'.users && id != actor.userId ==> id in s.users))
  }

  /** No surviving note or collection changed owner or creation time. */
  predicate OwnersFixed(s: Store, s': Store) {
    && (forall id :: id in s.notes && id in s'.notes ==>
          s'.notes[id].owner == s.notes[id].owner && s'.notes[id].createdAt == s.notes[id].createdAt)
    && (forall id :: id in s.collections && id in s'.collections ==>
          s'.collections[id].owner == s.collections[id].owner
          && s'.collections[id].createdAt == s.collections[id].createdAt)
  }
}

=== FILE: search_params.dfy ===
/** The query string of a URL as the WHATWG `URLSearchParams` object keeps
    it: an ordered list of name/value pairs in which a name may repeat. */
module SearchParams {
  import opened Common

  type Params = seq<(string, string)>

  /** `URLSearchParams.get`: the value of the first pair with that name. */
  function Get(q: Params, name: string): Option<string> {
    if |q| == 0 then None
    else if q[0].0 == name then Some(q[0].1)
    else Get(q[1..], name)
  }

  /** The pairs whose name differs from `name`, in their original order. */
  function Without(q: Params, name: string): (r: Params)
    ensures forall i :: 0 <= i < |r| ==> r[i].0 != name
  {
    if |q| == 0 then []
    else if q[0].0 == name then Without(q[1..], name)
    else [q[0]] + Without(q[1..], name)
  }

  /** Number of pairs carrying `name`. */
  function Count(q: Params, name: string): nat {
    if |q| == 0 then 0
    else (if q[0].0 == name then 1 else 0) + Count(q[1..], name)
  }

  /** `URLSearchParams.set`: the first pair with that name takes the new
      value and every later pair with that name is removed; when no pair has
      the name, the pair is appended at the end. */
  function Set(q: Params, name: string, value: string): Params {
    if |q| == 0 then [(name, value)]
    else if q[0].0 == name then [(name, value)] + Without(q[1..], name)
    else [q[0]] + Set(q[1..], name, value)
  }

  lemma {:induction false} WithoutHasNone(q: Params, name: string)
    ensures Count(Without(q, name), name) == 0
    ensures Get(Without(q, name), name) == None
  {
    if |q| > 0 {
      WithoutHasNone(q[1..], name);
    }
  }

  /** After `set`, `get` answers the new value and the name occurs exactly once. */
  lemma {:induction false} SetThenGet(q: Params, name: string, value: string)
    ensures Get(Set(q, name, value), name) == Some(value)
    ensures Count(Set(q, name, value), name) == 1
  {
    if |q| > 0 {
      if q[0].0 == name {
        WithoutHasNone(q[1..], name);
      } else {
        SetThenGet(q[1..], name, value);
      }
    }
  }

  /** `set` leaves every other pair where it was: dropping the name from the
      result gives exactly the original list with the name dropped. */
  lemma {:induction false} SetKeepsOthers(q: Params, name: string, value: string)
    ensures Without(Set(q, name, value), name) == Without(q, name)
  {
    if |q| > 0 {
      if q[0].0 == name {
        WithoutTwice(q[1..], name);
      } else {
        SetKeepsOthers(q[1..], name, value);
      }
    }
  }

  lemma {:induction false} WithoutTwice(q: Params, name: string)
    ensures Without(Without(q, name), name) == Without(q, name)
  {
    if |q| > 0 {
      WithoutTwice(q[1..], name);
    }
  }

  /** `set` under one name does not disturb `get` under another. */
  lemma {:induction false} SetOtherGet(q: Params, name: string, value: string, other: string)
    requires other != name
    ensures Get(Set(q, name, value), other) == Get(q, other)
  {
    if |q| > 0 {
      if q[0].0 == name {
        WithoutKeepsGet(q[1..], name, other);
      } else {
        SetOtherGet(q[1..], name, value, other);
      }
    }
  }

  lemma {:induction false} WithoutKeepsGet(q: Params, name: string, other: string)
    requires other != name
    ensures Get(Without(q, name), other) == Get(q, other)
  {
    if |q| > 0 {
      WithoutKeepsGet(q[1..], name, other);
    }
  }

  /** Dropping one name commutes with setting another. */
  lemma {:induction false} WithoutSetCommute(q: Params, name: string, value: string, other: string)
    requires other != name
    ensures Without(Set(q, name, value), other) == Set(Without(q, other), name, value)
  {
    if |q| > 0 {
      if q[0].0 == name {
        WithoutCommute(q[1..], name, other);
      } else if q[0].0 == other {
        WithoutSetCommute(q[1..], name, value, other);
      } else {
        WithoutSetCommute(q[1..], name, value, other);
      }
    }
  }

  lemma {:induction false} WithoutCommute(q: Params, a: string, b: string)
    ensures Without(Without(q, a), b) == Without(Without(q, b), a)
  {
    if |q| > 0 {
      WithoutCommute(q[1..], a, b);
    }
  }

  /** `set` under one name does not change how often another name occurs. */
  lemma {:induction false} SetOtherCount(q: Params, name: string, value: string, other: string)
    requires other != name
    ensures Count(Set(q, name, value), other) == Count(q, other)
  {
    if |q| > 0 {
      if q[0].0 == name {
        WithoutKeepsCount(q[1..], name, other);
      } else {
        SetOtherCount(q[1..], name, value, other);
      }
    }
  }

  lemma {:induction false} WithoutKeepsCount(q: Params, name: string, other: string)
    requires other != name
    ensures Count(Without(q, name), other) == Count(q, other)
  {
    if |q| > 0 {
      WithoutKeepsCount(q[1..], name, other);
    }
  }
}

=== FILE: users.dfy ===
/** The account handlers: list every account, read, update and delete one.
    Deleting an account deletes every note and collection it owns. */
module Users {
  import opened Common
  import opened Records

  /** An account as the handlers return it: without the password. */
  datatype PublicUser = PublicUser(username: string, isAdmin: bool)

  function Public(u: User): PublicUser {
    PublicUser(u.username, u.isAdmin)
  }

  /** `getAllUsers`: admins only; every account, password left out. */
  function GetAllUsers(actor: Actor, store: Store): (r: Reply<map<Id, PublicUser>>)
    ensures r.status in {Ok200, Forbidden403}
    ensures r.status == Forbidden403 <==> !actor.isAdmin
    ensures r.status == Forbidden403 ==> r.body.None?
    ensures r.status == Ok200 ==> r.body.Some? && r.body.value.Keys == store.users.Keys
    ensures r.status == Ok200 ==> forall id :: id in store.users ==>
              r.body.value[id].username == store.users[id].username
              && r.body.value[id].isAdmin == store.users[id].isAdmin
  {
    if !actor.isAdmin then Reply(Forbidden403, None)
    else Reply(Ok200, Some(map id | id in store.users :: Public(store.users[id])))
  }

  /** `getProfile`: an account is "owned" by itself, so the uniform
      owner-or-admin rule decides who may see it. The access check comes before the lookup, so a non-admin
      learns nothing about whether another account exists. */
  function GetProfile(actor: Actor, target: Id, store: Store): (r: Reply<PublicUser>)
    ensures !OwnerOrAdmin(actor, target) ==> r == Reply(Forbidden403, None)
    ensures OwnerOrAdmin(actor, target) && target !in store.users ==> r == Reply(NotFound404, None)
    ensures r.status == Ok200 <==> OwnerOrAdmin(actor, target) && target in store.users
    ensures r.status == Ok200 ==>
      r.body.Some? && r.body.value.username == store.users[target].username
      && r.body.value.isAdmin == store.users[target].isAdmin
  {
    if !OwnerOrAdmin(actor, target) then Reply(Forbidden403, None)
    else if target !in store.users then Reply(NotFound404, None)
    else Reply(Ok200, Some(Public(store.users[target])))
  }

  /** The fields of a profile update. */
  datatype ProfileBody = ProfileBody(username: Option<Json>, password: Option<Json>)

  const MinPasswordLength: nat := 4

  /** The validators of `updateProfile`: a username, if present, is a
      non-empty string; a password, if present, a string of at least four
      characters. */
  predicate ValidProfileBody(body: ProfileBody) {
    && (body.username.None? || IsNonEmptyString(body.username))
    && (body.password.None? || (body.password.value.JStr? && |body.password.value.s| >= MinPasswordLength))
  }

  /** `updateProfile`: access (403) before validation (400) before lookup
      (404); then each field that was supplied, and is truthy, is replaced. */
  function UpdateProfile(actor: Actor, target: Id, body: ProfileBody, store: Store): (r: Outcome)
    ensures r.status in {Ok200, BadRequest400, Forbidden403, NotFound404}
    ensures r.status != Ok200 ==> r.store == store
    ensures !OwnerOrAdmin(actor, target) ==> r.status == Forbidden403
    ensures OwnerOrAdmin(actor, target) && !ValidProfileBody(body) ==> r.status == BadRequest400
    ensures OwnerOrAdmin(actor, target) && ValidProfileBody(body) && target !in store.users ==> r.status == NotFound404
    ensures r.status == Ok200 <==> OwnerOrAdmin(actor, target) && ValidProfileBody(body) && target in store.users
    ensures r.status == Ok200 ==>
      && r.store.notes == store.notes
      && r.store.collections == store.collections
      && r.store.users.Keys == store.users.Keys
      && (forall other :: other in store.users && other != target ==> r.store.users[other] == store.users[other])
    ensures r.status == Ok200 ==>
      var (u, u') := (store.users[target], r.store.users[target]);
      && u'.username == (if Truthy(body.username) then body.username.value.s else u.username)
      && u'.password == (if Truthy(body.password) then body.password.value.s else u.password)
      && u'.isAdmin == u.isAdmin
      && (body.password.Some? ==> |u'.password| >= MinPasswordLength)
    ensures ForeignUntouched(actor, store, r.store)
    ensures OwnersFixed(store, r.store)
    ensures WellFormed(store) ==> WellFormed(r.store)
  {
    if !OwnerOrAdmin(actor, target) then Outcome(Forbidden403, store)
    else if !ValidProfileBody(body) then Outcome(BadRequest400, store)
    else if target !in store.users then Outcome(NotFound404, store)
    else
      var u := store.users[target];
      var u1 := if Truthy(body.username) then u.(username := body.username.value.s) else u;
      var u2 := if Truthy(body.password) then u1.(password := body.password.value.s) else u1;
      Outcome(Ok200, store.(users := store.users[target := u2]))
  }

  /** The notes and the collections whose owner is `target`. */
  function OwnedNotes(notes: map<Id, Note>, target: Id): set<Id> {
    set id | id in notes && notes[id].owner == target
  }

  function OwnedCollections(collections: map<Id, Collection>, target: Id): set<Id> {
    set id | id in collections && collections[id].owner == Some(target)
  }

  lemma RemovedCount<T>(m: map<Id, T>, gone: set<Id>)
    requires gone <= m.Keys
    ensures |m - gone| == |m| - |gone|
  {
    assert (m - gone).Keys == m.Keys - gone;
    assert m.Keys == (m.Keys - gone) + gone;
  }

  /** `Note.deleteMany({user: target})`: every other note stays as it was. */
  function DeleteNotesOf(notes: map<Id, Note>, target: Id): (r: map<Id, Note>)
    ensures forall id :: id in r <==> id in notes && notes[id].owner != target
    ensures forall id :: id in r ==> r[id] == notes[id]
    ensures |notes| - |r| == |OwnedNotes(notes, target)|
  {
    RemovedCount(notes, OwnedNotes(notes, target));
    notes - OwnedNotes(notes, target)
  }

  /** `NoteCollection.deleteMany({user: target})`; an ownerless collection
      never matches. */
  function DeleteCollectionsOf(collections: map<Id, Collection>, target: Id): (r: map<Id, Collection>)
    ensures forall id :: id in r <==> id in collections && collections[id].owner != Some(target)
    ensures forall id :: id in r ==> r[id] == collections[id]
    ensures |collections| - |r| == |OwnedCollections(collections, target)|
  {
    RemovedCount(collections, OwnedCollections(collections, target));
    collections - OwnedCollections(collections, target)
  }

  /** `deleteProfile`'s answer: the status, the two counts it reports, and
      the store after it. */
  datatype DeleteReport = DeleteReport(status: Status, deletedNotes: nat, deletedCollections: nat, store: Store)

  /** The cascade of `deleteProfile`: the target's notes, its collections,
      and then the account itself. */
  function Cascade(store: Store, target: Id): (s': Store)
    ensures forall id :: id in s'.notes <==> id in store.notes && store.notes[id].owner != target
    ensures forall id :: id in s'.notes ==> s'.notes[id] == store.notes[id]
    ensures forall id :: id in s'.collections <==>
              id in store.collections && store.collections[id].owner != Some(target)
    ensures forall id :: id in s'.collections ==> s'.collections[id] == store.collections[id]
    ensures s'.users == store.users - {target}
    ensures |store.notes| - |s'.notes| == |OwnedNotes(store.notes, target)|
    ensures |store.collections| - |s'.collections| == |OwnedCollections(store.collections, target)|
  {
    Store(DeleteNotesOf(store.notes, target), DeleteCollectionsOf(store.collections, target),
          store.users - {target})
  }

  /** The cascade removes nothing the target does not own and keeps what
      the validators guarantee. */
  lemma CascadeTouchesOnlyTarget(store: Store, target: Id)
    ensures WellFormed(store) ==> WellFormed(Cascade(store, target))
    ensures ForeignUntouched(Actor(target, false), store, Cascade(store, target))
  {
    var s' := Cascade(store, target);
    var a := Actor(target, false);
    forall id | id in store.notes && store.notes[id].owner != target
      ensures id in s'.notes && s'.notes[id] == store.notes[id]
    {
    }
    forall id | id in store.collections && !OwnsCollection(a, store.collections[id])
      ensures id in s'.collections && s'.collections[id] == store.collections[id]
    {
    }
  }

  /** `deleteProfile`: access (403), lookup (404), then delete every note and
      every collection owned by the account, and the account itself. */
  function DeleteProfile(actor: Actor, target: Id, store: Store): (r: DeleteReport)
    ensures r.status in {Ok200, Forbidden403, NotFound404}
    ensures r.status != Ok200 ==> r.store == store && r.deletedNotes == 0 && r.deletedCollections == 0
    ensures !OwnerOrAdmin(actor, target) ==> r.status == Forbidden403
    ensures OwnerOrAdmin(actor, target) && target !in store.users ==> r.status == NotFound404
    ensures r.status == Ok200 <==> OwnerOrAdmin(actor, target) && target in store.users
    ensures r.status == Ok200 ==>
      && (forall id :: id in r.store.notes <==> id in store.notes && store.notes[id].owner != target)
      && (forall id :: id in r.store.notes ==> r.store.notes[id] == store.notes[id])
      && (forall id :: id in r.store.collections <==>
            id in store.collections && store.collections[id].owner != Some(target))
      && (forall id :: id in r.store.collections ==> r.store.collections[id] == store.collections[id])
      && r.store.users == store.users - {target}
    ensures r.status == Ok200 ==>
      && r.deletedNotes == |store.notes| - |r.store.notes|
      && r.deletedCollections == |store.collections| - |r.store.collections|
    ensures ForeignUntouched(actor, store, r.store)
    ensures OwnersFixed(store, r.store)
    ensures WellFormed(store) ==> WellFormed(r.store)
  {
    if !OwnerOrAdmin(actor, target) then DeleteReport(Forbidden403, 0, 0, store)
    else if target !in store.users then DeleteReport(NotFound404, 0, 0, store)
    else
      CascadeTouchesOnlyTarget(store, target);
      DeleteReport(Ok200, |OwnedNotes(store.notes, target)|, |OwnedCollections(store.collections, target)|,
                   Cascade(store, target))
  }

  /** A profile update that succeeded is what the account reads back. */
  lemma UpdateThenGetProfile(actor: Actor, target: Id, body: ProfileBody, store: Store)
    requires OwnerOrAdmin(actor, target) && ValidProfileBody(body) && target in store.users
    ensures var r := GetProfile(actor, target, UpdateProfile(actor, target, body, store).store);
      && r.status == Ok200
      && r.body.value.username == (if Truthy(body.username) then body.username.value.s else store.users[target].username)
  {
  }

  /** After an account is deleted nothing is owned by it any more, it can no
      longer be read, and the reported counts are the sizes of what it owned. */
  lemma DeleteProfileLeavesNothingOwned(actor: Actor, target: Id, store: Store)
    requires OwnerOrAdmin(actor, target) && target in store.users
    ensures var r := DeleteProfile(actor, target, store);
      && OwnedNotes(r.store.notes, target) == {}
      && OwnedCollections(r.store.collections, target) == {}
      && GetProfile(actor, target, r.store).status == NotFound404
      && r.deletedNotes == |OwnedNotes(store.notes, target)|
      && r.deletedCollections == |OwnedCollections(store.collections, target)|
  {
  }
}
